=== FILE: README.md ===
# ToneGenerator renderer core, modelled in Dafny

ToneGenerator plays a sine tone on a selectable output device. Its core is
`ToneAudioRenderer`, which runs two workers. The generator worker writes
fixed-size PCM blocks into a ring buffer of two blocks. The render worker
resolves the configured device selector to an audio endpoint, opens it, and
pumps the ring buffer into the device's own buffer. When the system default
device changes, or the selector changes, it tears the session down and
resolves again. This project models the decision logic of that class as pure
functions over immutable data:

- `Common`: option values, bytes, endpoint records, buffer sizes, and the
  .NET string tests the class uses (`Contains`, `StartsWith`,
  `OrdinalIgnoreCase` equality, `IsNullOrWhiteSpace`). It also holds the
  first-match search that the `foreach … break` loops perform.
- `Buffers`: the ring buffer and the device-side buffered wave provider,
  tracked only as byte counts.
- `DeviceSelection`: resolves a selector to the system default endpoint or to
  the first enumerated endpoint whose friendly name the selector contains,
  and records which endpoints are disposed on the way.
- `DeviceNames`: the friendly-name lookup over wave-out product names, as a
  fold with a cache that only grows.
- `Generator`: one iteration of the generator loop. It writes a block only if
  there is room for it. The block is zeros when muted and otherwise the
  previous scratch block. The cached parameters are then refreshed.
- `RenderLoop`: the render worker as a state machine over its control points.
  The phases are Idle, IdleWait, Resolving, Streaming, Backoff, Settle and
  Stopped. The module also holds the default-device notification filter.
- `Pipeline`: construction, and every interleaving of generator steps, render
  steps, notifications and device playback.
- `Lifecycle`: `Dispose`, which guards each reference against null.

The thread, device and clock boundaries are inputs. Each render step sees an
`Env` holding the stop signal, the current selector, the active endpoints in
enumeration order, the default endpoint if one exists, and whether opening
the resolved device throws. Each generator step receives the current tone parameters and
the block that the sine loop synthesizes. Device playback is an event that
drains the device buffer.

Some behaviour of the code is easy to miss:

- The reset signal is raised for every console-role render default change,
  whatever the selector is. So a session opened on a named device is also
  torn down and re-resolved when the default device changes.
- The reset signal is an auto-reset event. Only the pump's teardown test
  consumes it. A change that arrives while no session is open stays pending,
  and it ends the next session at that session's first idle pump pass.
- Matching tests whether the selector contains the endpoint's friendly name.
  A selector equal to one endpoint's exact name can therefore resolve to an
  earlier endpoint whose name is a shorter part of it
  (`ExactNameLosesToEarlierSubstring`). An endpoint with an empty friendly
  name matches every selector.
- After a failed resolution the worker waits 500 ms and then another 100 ms
  at the bottom of the outer loop before it reads the selector again.
- The device-removed and state-changed callbacks are empty, and the pump
  loop makes no call on the device. A removed device that is not the default
  is therefore never noticed: the session keeps polling until stop, a
  default change or a selector change (`SessionOutlivesItsDevice`).

## Model

| member | source | states |
|---|---|---|
| Common.ContainsIffOccurs | ToneGenerator/AudioSource/ToneAudioRenderer.cs:202 | the ordinal containment test holds exactly when some offset of the selector starts a copy of the friendly name |
| Common.FirstWhere | ToneGenerator/AudioSource/ToneAudioRenderer.cs:200-211 | the search of a `foreach … break` loop: the index found is the first from the starting point whose element satisfies the test, and nothing is found exactly when no element from there on satisfies it |
| DeviceSelection.Resolve | ToneGenerator/AudioSource/ToneAudioRenderer.cs:196-211 | "default" (ignoring case) with a default endpoint present picks that endpoint and disposes nothing; otherwise the literal selector picks the first endpoint in enumeration order whose name it contains, with exactly the earlier endpoints disposed; with no such endpoint every endpoint is disposed and nothing is chosen, and that happens exactly when no endpoint matches and the default case does not apply |
| DeviceSelection.ScanEndpoints | ToneGenerator/AudioSource/ToneAudioRenderer.cs:200-211 | the enumeration loop stops at the first matching endpoint, no earlier endpoint matches, and exactly the endpoints passed over are disposed; with no match all are disposed; the loop finds the same endpoint as the search `Resolve` uses |
| DeviceSelection.ExactNameNeverFails | ToneGenerator/AudioSource/ToneAudioRenderer.cs:200-206 | if some endpoint's friendly name equals the selector, resolution never fails; when it scans the endpoints rather than taking the default (the default is taken for a "default" selector whenever a default endpoint exists), it picks that endpoint or an earlier one |
| DeviceSelection.ExactNameLosesToEarlierSubstring | ToneGenerator/AudioSource/ToneAudioRenderer.cs:200-206 | with endpoints "Speakers" then "Speakers (USB)" and no default, the selector "Speakers (USB)" resolves to "Speakers" |
| DeviceSelection.DefaultFallsThroughToScan | ToneGenerator/AudioSource/ToneAudioRenderer.cs:196-202 | "default" with no default endpoint is matched literally: a first endpoint named "fault" is chosen |
| DeviceNames.PrefixMatch | ToneGenerator/AudioSource/ToneAudioRenderer.cs:32-39 | the index found is the first active endpoint whose friendly name starts with the product name; none is found exactly when no endpoint's name has that prefix |
| DeviceNames.LookupName | ToneGenerator/AudioSource/ToneAudioRenderer.cs:24-40 | a cache hit yields the cached name and leaves the cache alone; a miss yields a name exactly when some endpoint name has the product name as a prefix, that name is the first such, and it is added under the product name; otherwise nothing is yielded or cached |
| DeviceNames.EnumerateDeviceNames | ToneGenerator/AudioSource/ToneAudioRenderer.cs:16-44 | over all product names the cache only gains entries and never changes one, gains only product names that were enumerated, and at most one name is yielded per product name |
| DeviceNames.FinalCache | ToneGenerator/AudioSource/ToneAudioRenderer.cs:26-36 | the cache after enumeration is the cache before it plus, for each enumerated product name not cached and with a matching endpoint, that endpoint's name |
| DeviceNames.YieldsFinalCacheEntries | ToneGenerator/AudioSource/ToneAudioRenderer.cs:21-40 | the yielded names are, in device order, the final cache's entry for each product name that the final cache holds; a product name yields nothing exactly when it ends up uncached |
| Buffers.Write | ToneGenerator/AudioSource/ToneAudioRenderer.cs:131-139 | a write of data or zeros, made only after the writer has checked there is room, adds exactly its length to the occupancy and takes exactly that much free space, so occupancy stays within capacity |
| Buffers.Read | ToneGenerator/AudioSource/ToneAudioRenderer.cs:227-228 | a ring-buffer read returns at most the requested bytes and at most what is held, removes what it returns, and returns fewer than requested only when it empties the buffer |
| Buffers.AddSamples | ToneGenerator/AudioSource/ToneAudioRenderer.cs:174-175 | the device buffer never exceeds its length; bytes are discarded exactly when the addition would overflow it, and buffered plus discarded equals before plus added |
| Generator.Start | ToneGenerator/AudioSource/ToneAudioRenderer.cs:125-128 | before the first iteration the cached frequency and volume hold a negative sentinel, so the first write with non-negative parameters refreshes both |
| Generator.Step | ToneGenerator/AudioSource/ToneAudioRenderer.cs:129-151 | a block is written exactly when free space is at least 3200 bytes, and then occupancy grows by one block; the block is all zeros when muted and the previous scratch block otherwise; after a write the cached frequency and volume equal the current ones; a step that writes nothing changes nothing |
| Generator.RunUndrained | ToneGenerator/AudioSource/ToneAudioRenderer.cs:108-131 | with no reader, the blocks written never exceed the free space at the start; from an empty two-block buffer at most two blocks are written; occupancy never passes capacity |
| Generator.WriteLagsSynthesisByOneBlock | ToneGenerator/AudioSource/ToneAudioRenderer.cs:133-163 | an unmuted write emits the block synthesized on the previous writing iteration, because the write precedes the synthesis |
| RenderLoop.OnDefaultDeviceChanged | ToneGenerator/AudioSource/ToneAudioRenderer.cs:63-68 | a default-device change raises the reset signal for the render flow with the console role, and leaves it unchanged for every other flow and role |
| RenderLoop.IdleStep | ToneGenerator/AudioSource/ToneAudioRenderer.cs:186-192 | at the top of the outer loop a stop exits; otherwise the device buffer is cleared, a blank selector leads only to the idle wait, and a non-blank one is snapshotted for resolution; the reset signal is untouched |
| RenderLoop.ResolveStep | ToneGenerator/AudioSource/ToneAudioRenderer.cs:194-249 | no match leads to the backoff with no device opened; a resolved device is opened and streamed under the snapshotted selector, unless opening throws, in which case it is released and the worker settles; the disposed endpoints are those of the resolution |
| RenderLoop.StreamStep | ToneGenerator/AudioSource/ToneAudioRenderer.cs:223-235 | the pump feeds exactly when the ring buffer is non-empty and the device holds at most 3200 bytes; it moves at most 3200 bytes, fewer only when the ring buffer empties, and the device buffer drops nothing; otherwise the session ends exactly on stop, a pending reset or a changed selector, and ending releases the device; device faults and the endpoint list play no part; the reset signal is consumed only by the teardown test |
| RenderLoop.WaitThen | ToneGenerator/AudioSource/ToneAudioRenderer.cs:248-261 | a stop-aware wait of a given length: the worker exits when the stop event is set and otherwise goes on to the next control point; the wait lasts at most its length and changes nothing else |
| RenderLoop.Step | ToneGenerator/AudioSource/ToneAudioRenderer.cs:186-262 | the ring buffer changes only when the pump feeds; the device buffer never drops data; the reset signal changes only while streaming; a device is opened only from resolution; a stopped worker stays stopped and does nothing |
| RenderLoop.SessionOutlivesItsDevice | ToneGenerator/AudioSource/ToneAudioRenderer.cs:223-235 | with no stop, no pending reset and an unchanged selector, a streaming worker stays in the same session on every step and never releases the device, whatever the endpoint list and device faults are |
| RenderLoop.BlankSelectorNeverResolves | ToneGenerator/AudioSource/ToneAudioRenderer.cs:252-257 | while the selector stays blank the worker only idles or stops: it never resolves, disposes or opens a device, never touches the ring buffer, and waits at most 100 ms per step |
| RenderLoop.NoMatchBacksOff | ToneGenerator/AudioSource/ToneAudioRenderer.cs:246-261 | a selector matching nothing disposes every endpoint, opens nothing, and waits 500 ms plus 100 ms before the selector is read again |
| RenderLoop.StopHeldStops | ToneGenerator/AudioSource/ToneAudioRenderer.cs:186-262 | with the stop event set for three steps the worker exits from any control point; no device is opened after the first step, and one opened by a resolution already under way is released on the next step |
| RenderLoop.DefaultChangeSwapsDevice | ToneGenerator/AudioSource/ToneAudioRenderer.cs:196-232 | streaming to the default endpoint, a console render default change ends the session at the next idle pump pass, releasing the old device and consuming the signal, and the worker reopens on the new default endpoint |
| Pipeline.Construct | ToneGenerator/AudioSource/ToneAudioRenderer.cs:104-115 | construction yields an empty ring buffer of exactly two blocks, a running generator and an idle render worker with no reset pending |
| Pipeline.Apply | ToneGenerator/AudioSource/ToneAudioRenderer.cs:129-235 | only the generator adds to the ring buffer and only the other events take from it; only a notification raises the reset signal; a stopped generator stays stopped |
| Pipeline.Run | ToneGenerator/AudioSource/ToneAudioRenderer.cs:129-235 | across any interleaving of generator steps, render steps, notifications and playback, ring occupancy never exceeds its 6400-byte capacity and the device buffer never exceeds its length |
| Lifecycle.Retire | ToneGenerator/AudioSource/ToneAudioRenderer.cs:273-278 | a worker is joined exactly when it is present and alive, and aborted exactly when the join times out; the join comes first and the abort, if any, right after it, so at most two actions result |
| Lifecycle.RetireWorkers | ToneGenerator/AudioSource/ToneAudioRenderer.cs:273-284 | every action on the render worker, its abort included, comes before every action on the generator worker; each is joined exactly when present and alive and aborted exactly when its join times out; the stop event is not touched |
| Lifecycle.Bracketed | ToneGenerator/AudioSource/ToneAudioRenderer.cs:269-288 | the stop event is signalled before and closed after the retirements exactly when it exists; the worker actions are exactly the retirements, and their order is kept |
| Lifecycle.Dispose | ToneGenerator/AudioSource/ToneAudioRenderer.cs:269-288 | disposal drops every reference; the stop event is signalled first and closed last exactly when it exists; each worker is joined exactly when present and alive, and aborted exactly when it is alive and does not exit within the join; every action on the render worker comes before every action on the generator; disposing again does nothing |

## Left out

- Sine synthesis is left out: the phase accumulator, `tincr`, `amp` and the casts to 16-bit samples are floating-point arithmetic. Each generator step receives the synthesized block as an input.
- Generator.Step: the memoization of `tincr` and `amp` cannot be observed, because those two values are not modelled. Only the cached frequency and volume are tracked.
- Generator.Step: frequency and volume are `real`. A NaN frequency, which never equals its cached copy, is not modelled.
- The scratch buffer comes from `Marshal.AllocHGlobal` and starts uninitialized. It is an arbitrary input block, and pointers are not modelled.
- `CircularBuffer` is the project's own class, not NAudio's: the file imports only `NAudio.CoreAudioApi` and `NAudio.Wave`, and it calls `WriteZero(int)` and `Write(IntPtr, int, int)` on the buffer. Its source is not part of this model. Only its count and capacity are kept, and its byte contents and cursors are not modelled.
- Buffers.Read: that a read returns the smaller of the held and requested byte counts is an assumed contract for the unseen `CircularBuffer` class, not a documented behaviour.
- `WasapiOut`, the device enumerator and the data flowing through `BufferedWaveProvider` are library I/O. The model keeps only the endpoint list, the default endpoint, a throws-flag and the count of buffered bytes. Playback is an event that drains that count.
- The stop event is an input of each step and may be clear on a step after one where it was set, while the source never resets it. The safety properties hold for any such sequence; what a held stop does is stated by `StopHeldStops`.
- Threads, event waits and the cache lock are left out. Each step sees one value of the stop signal. `waitMs` is the longest a wait can take, and a wait ends early on stop. The 1 ms stop test inside the pump's teardown check is folded into the loop test of the next step.
- Exceptions from constructing, initialising or starting the output device are caught by the source and modelled as `fault`, after which the device is released and the worker settles. The pump loop makes no call that can throw, so `fault` plays no part there. Playback errors raised on the output device's own thread are not modelled.
- RenderLoop.ResolveStep: resolution runs outside the `try` block, so a throw from the default-endpoint query, the endpoint enumeration or a friendly-name read is unhandled. The render worker is an ordinary background thread, and an unhandled exception on any managed thread terminates the whole process. An example is a default device removed between the test and the fetch. The model leaves that throw out and always reaches backoff, settle or streaming.
- DeviceNames.LookupName: `StartsWith` is modelled as an ordinal prefix test. The source calls the culture-sensitive overload.
- DeviceSelection.Resolve: the ignore-case comparison with "default" folds only ASCII letters. No other character folds to a letter of "default" under ordinal ignore-case comparison.
- The selector is a non-null string. A null selector would behave like a blank one.
- The friendly-name enumeration is modelled as a complete traversal. Lazy consumption that stops early is not modelled. The wave-out product names are an input sequence. The source's `State != NotPresent` test is always true for endpoints enumerated as active, so it is left out.
- DeviceNames.EnumerateDeviceNames: the active endpoints are a single snapshot shared by every product name. The source enumerates them again for each product name, so a device change during the enumeration is not modelled.
- FIFO byte-exactness of the ring buffer and periodicity of the synthesized tone need byte contents and floating point, so they are not modelled.
- `ToneVisualizer.cs` and `MainWindow.xaml.cs` are WPF drawing and window glue, and are not modelled.
- Lifecycle.Dispose: `Thread.Abort` is recorded as an action. What the aborted thread then does is not modelled.

=== FILE: buffers.dfy ===
/** Occupancy-level models of the two byte buffers the renderer uses: the
    ring buffer between the generator and render threads, and the device-side
    buffered wave provider. Byte contents and cursor positions are not
    modelled; only how many bytes each holds. */
module Buffers {
  import opened Common

  /** The ring buffer: `count` bytes of unread data out of `maxLength`. */
  datatype Ring = Ring(count: nat, maxLength: nat) {
    predicate Valid() {
      count <= maxLength
    }

    function Free(): (f: nat)
      requires Valid()
      ensures count + f == maxLength
    {
      maxLength - count
    }
  }

  function EmptyRing(capacity: nat): (r: Ring)
    ensures r.Valid() && r.count == 0 && r.Free() == capacity
  {
    Ring(0, capacity)
  }

  /** Appends `n` bytes (data or zeros: both `Write` and `WriteZero` have
      this effect on occupancy). The writer must have checked for room. */
  function Write(r: Ring, n: nat): (r': Ring)
    requires r.Valid() && n <= r.Free()
    ensures r'.Valid() && r'.maxLength == r.maxLength
    ensures r'.count == r.count + n && r'.Free() + n == r.Free()
  {
    r.(count := r.count + n)
  }

  datatype ReadResult = ReadResult(ring: Ring, count: nat)

  /** Reads up to `n` bytes: a short read happens only when the buffer holds
      fewer than `n` bytes, and then it empties the buffer. */
  function Read(r: Ring, n: nat): (res: ReadResult)
    requires r.Valid()
    ensures res.ring.Valid() && res.ring.maxLength == r.maxLength
    ensures res.count <= n && res.count <= r.count
    ensures res.ring.count + res.count == r.count
    ensures res.count < n ==> res.ring.count == 0
  {
    var k := if r.count < n then r.count else n;
    ReadResult(r.(count := r.count - k), k)
  }

  /** The device-side buffer: bytes queued for the output device. Its length
      is fixed at `ProviderLength` and it discards on overflow. */
  datatype Provider = Provider(buffered: nat) {
    predicate Valid() {
      buffered <= ProviderLength
    }
  }

  datatype AddResult = AddResult(provider: Provider, dropped: nat)

  /** Queues `n` bytes; whatever does not fit is discarded. */
  function AddSamples(p: Provider, n: nat): (res: AddResult)
    requires p.Valid()
    ensures res.provider.Valid()
    ensures res.provider.buffered + res.dropped == p.buffered + n
    ensures res.dropped == 0 <==> p.buffered + n <= ProviderLength
  {
    if p.buffered + n <= ProviderLength then AddResult(Provider(p.buffered + n), 0)
    else AddResult(Provider(ProviderLength), p.buffered + n - ProviderLength)
  }

  /** The device plays up to `k` queued bytes. */
  function Playback(p: Provider, k: nat): (p': Provider)
    requires p.Valid()
    ensures p'.Valid() && p'.buffered <= p.buffered
    ensures p'.buffered == 0 || p'.buffered + k == p.buffered
  {
    if k <= p.buffered then Provider(p.buffered - k) else Provider(0)
  }
}

=== FILE: common.dfy ===
/** Shared vocabulary of the tone renderer model: optional values, bytes,
    endpoint records, the .NET string tests the renderer relies on, the fixed
    buffer sizes, and a first-match search over sequences. */
module Common {

  datatype Option<+T> = None | Some(value: T)

  newtype byte = x: int | 0 <= x < 256

  /** One render endpoint as the device enumerator reports it: a
      system-assigned identity and a human-readable friendly name. */
  datatype Endpoint = Endpoint(id: string, friendlyName: string)

  /** Output format: 48 kHz, 16-bit, stereo. */
  const SampleRate: nat := 48000
  const SamplesPerBlock: nat := 800
  /** One generator block: 800 stereo frames of 16-bit samples. */
  const BlockBytes: nat := SamplesPerBlock * 2 * 2
  /** Capacity of the ring buffer between the two worker threads. */
  const RingCapacity: nat := SamplesPerBlock * 2 * 2 * 2
  /** Bytes moved per pump: one sixtieth of a second of audio. */
  const FrameBytes: nat := (SampleRate / 60) * 4
  /** Length of the device-side buffer (the buffered wave provider). */
  const ProviderLength: nat := FrameBytes * 2

  /** Ordinal `s.StartsWith(prefix)`. */
  predicate StartsWith(s: string, prefix: string) {
    |prefix| <= |s| && s[..|prefix|] == prefix
  }

  /** Ordinal `s.Contains(sub)`: `sub` occurs somewhere in `s`. */
  predicate Contains(s: string, sub: string)
    decreases |s|
  {
    StartsWith(s, sub) || (0 < |s| && Contains(s[1..], sub))
  }

  /** `sub` occurs in `s` at offset `i`. */
  predicate OccursAt(s: string, sub: string, i: int) {
    0 <= i && i + |sub| <= |s| && s[i..i + |sub|] == sub
  }

  /** The recursive `Contains` agrees with the positional reading:
      some offset of `s` starts a copy of `sub`. */
  lemma {:induction false} ContainsIffOccurs(s: string, sub: string)
    ensures Contains(s, sub) <==> exists i :: OccursAt(s, sub, i)
    decreases |s|
  {
    if Contains(s, sub) {
      if StartsWith(s, sub) {
        assert OccursAt(s, sub, 0);
      } else {
        ContainsIffOccurs(s[1..], sub);
        var i :| OccursAt(s[1..], sub, i);
        assert s[1..][i..i + |sub|] == s[i + 1..i + 1 + |sub|];
        assert OccursAt(s, sub, i + 1);
      }
    }
    if exists i :: OccursAt(s, sub, i) {
      var i :| OccursAt(s, sub, i);
      if i == 0 {
        assert StartsWith(s, sub);
      } else {
        assert s[1..][i - 1..i - 1 + |sub|] == s[i..i + |sub|];
        assert OccursAt(s[1..], sub, i - 1);
        ContainsIffOccurs(s[1..], sub);
      }
    }
  }

  /** The ASCII part of the simple upper-case mapping. */
  function AsciiUpper(c: char): (u: char)
    ensures 'a' <= c <= 'z' ==> 'A' <= u <= 'Z'
    ensures !('a' <= c <= 'z') ==> u == c
  {
    if 'a' <= c <= 'z' then (c as int - 32) as char else c
  }

  /** `a.Equals(b, StringComparison.OrdinalIgnoreCase)`, with case folding
      restricted to ASCII letters. */
  predicate EqualsIgnoreCase(a: string, b: string) {
    |a| == |b| && forall i :: 0 <= i < |a| ==> AsciiUpper(a[i]) == AsciiUpper(b[i])
  }

  /** `char.IsWhiteSpace`: the Unicode space separators, line and paragraph
      separators, and the control characters U+0009..U+000D and U+0085. */
  predicate IsWhiteSpace(c: char) {
    || c == ' '
    || '\t' <= c <= '\r'
    || c == '\U{0085}'
    || c == '\U{00A0}'
    || c == '\U{1680}'
    || '\U{2000}' <= c <= '\U{200A}'
    || c == '\U{2028}'
    || c == '\U{2029}'
    || c == '\U{202F}'
    || c == '\U{205F}'
    || c == '\U{3000}'
  }

  /** `string.IsNullOrWhiteSpace` for a non-null string. */
  predicate IsBlank(s: string) {
    forall i :: 0 <= i < |s| ==> IsWhiteSpace(s[i])
  }

  /** Index of the first element at or after `from` that satisfies `p`, the
      way a `foreach` with `break` finds it. */
  function FirstWhere<T>(xs: seq<T>, p: T -> bool, from: nat): (r: Option<nat>)
    requires from <= |xs|
    ensures r.Some? ==> from <= r.value < |xs| && p(xs[r.value])
    ensures r.Some? ==> forall j :: from <= j < r.value ==> !p(xs[j])
    ensures r.None? <==> forall j :: from <= j < |xs| ==> !p(xs[j])
    decreases |xs| - from
  {
    if from == |xs| then None
    else if p(xs[from]) then Some(from)
    else FirstWhere(xs, p, from + 1)
  }
}

=== FILE: device_names.dfy ===
/** Friendly-name lookup for the wave-out devices, with the process-wide
    cache from product name to endpoint friendly name. */
module DeviceNames {
  import opened Common

  type Cache = map<string, string>

  /** Index `i` is the first endpoint whose friendly name starts with `product`. */
  predicate IsFirstPrefix(product: string, endpoints: seq<Endpoint>, i: int) {
    && 0 <= i < |endpoints|
    && StartsWith(endpoints[i].friendlyName, product)
    && forall j :: 0 <= j < i ==> !StartsWith(endpoints[j].friendlyName, product)
  }

  /** First active endpoint whose friendly name starts with `product`. */
  function PrefixMatch(product: string, endpoints: seq<Endpoint>): (r: Option<nat>)
    ensures r.Some? ==> IsFirstPrefix(product, endpoints, r.value)
    ensures r.None? <==> forall j :: 0 <= j < |endpoints| ==> !StartsWith(endpoints[j].friendlyName, product)
  {
    FirstWhere(endpoints, (e: Endpoint) => StartsWith(e.friendlyName, product), 0)
  }

  /** The cache only grows: every entry of `c` is kept with its value. */
  predicate Extends(c: Cache, c': Cache) {
    forall p :: p in c ==> p in c' && c'[p] == c[p]
  }

  datatype Lookup = Lookup(name: Option<string>, cache: Cache)

  /** One product name: a cache hit yields the cached name; a miss yields and
      caches the first endpoint whose name starts with the product name; with
      no such endpoint nothing is yielded and the cache is left alone. */
  function LookupName(product: string, endpoints: seq<Endpoint>, cache: Cache): (r: Lookup)
    ensures product in cache ==> r == Lookup(Some(cache[product]), cache)
    ensures product !in cache ==> (r.name.Some? <==> exists j :: 0 <= j < |endpoints| && StartsWith(endpoints[j].friendlyName, product))
    ensures product !in cache && r.name.Some? ==>
              exists i :: IsFirstPrefix(product, endpoints, i) && r.name.value == endpoints[i].friendlyName
    ensures r.name.Some? ==> r.cache == cache[product := r.name.value]
    ensures r.name.None? ==> r.cache == cache
  {
    if product in cache then Lookup(Some(cache[product]), cache)
    else
      match MatchedName(product, endpoints)
      case Some(n) =>
        assert IsFirstPrefix(product, endpoints, PrefixMatch(product, endpoints).value);
        Lookup(Some(n), cache[product := n])
      case None => Lookup(None, cache)
  }

  /** Friendly name of the first endpoint whose name starts with `product`. */
  function MatchedName(product: string, endpoints: seq<Endpoint>): Option<string> {
    match PrefixMatch(product, endpoints)
    case Some(i) => Some(endpoints[i].friendlyName)
    case None => None
  }

  datatype Listing = Listing(names: seq<string>, cache: Cache)

  function OptionToSeq(o: Option<string>): seq<string> {
    if o.Some? then [o.value] else []
  }

  /** The enumeration over all product names, in device order, threading the
      cache through. */
  function EnumerateDeviceNames(products: seq<string>, endpoints: seq<Endpoint>, cache: Cache): (r: Listing)
    ensures Extends(cache, r.cache)
    ensures forall p :: p in r.cache ==> p in cache || p in products
    ensures |r.names| <= |products|
  {
    if products == [] then Listing([], cache)
    else
      var first := LookupName(products[0], endpoints, cache);
      var rest := EnumerateDeviceNames(products[1..], endpoints, first.cache);
      Listing(OptionToSeq(first.name) + rest.names, rest.cache)
  }

  /** What the enumeration adds to the cache: each product name that was not
      cached and has a prefix-matching endpoint, mapped to that endpoint's
      friendly name. */
  function Learned(products: seq<string>, endpoints: seq<Endpoint>, cache: Cache): Cache {
    map p | p in products && p !in cache && MatchedName(p, endpoints).Some? :: MatchedName(p, endpoints).value
  }

  /** The cache after the enumeration is the cache before it plus exactly the
      learned entries. */
  lemma {:induction false} FinalCache(products: seq<string>, endpoints: seq<Endpoint>, cache: Cache)
    ensures EnumerateDeviceNames(products, endpoints, cache).cache == cache + Learned(products, endpoints, cache)
    decreases |products|
  {
    if products == [] {
      assert Learned(products, endpoints, cache) == map[];
    } else {
      var p, tail := products[0], products[1..];
      assert products == [p] + tail;
      var first := LookupName(p, endpoints, cache);
      var rest := EnumerateDeviceNames(tail, endpoints, first.cache);
      assert EnumerateDeviceNames(products, endpoints, cache).cache == rest.cache;
      FinalCache(tail, endpoints, first.cache);
      if p in cache || MatchedName(p, endpoints).None? {
        assert first.cache == cache;
        LearnedSkips(p, tail, endpoints, cache);
      } else {
        var n := MatchedName(p, endpoints).value;
        assert first.cache == cache[p := n];
        LearnedAdds(p, tail, endpoints, cache, n);
        UpdateThenUnion(cache, Learned(tail, endpoints, cache[p := n]), p, n);
      }
    }
  }

  lemma UpdateThenUnion(m: Cache, l: Cache, p: string, n: string)
    requires p !in l
    ensures m[p := n] + l == m + l[p := n]
  {
  }

  /** A leading product name that is cached or has no match adds nothing. */
  lemma LearnedSkips(p: string, tail: seq<string>, endpoints: seq<Endpoint>, cache: Cache)
    requires p in cache || MatchedName(p, endpoints).None?
    ensures Learned([p] + tail, endpoints, cache) == Learned(tail, endpoints, cache)
  {
  }

  /** A leading product name that is not cached but matches adds its entry;
      the rest is learned against the cache that already holds it. */
  lemma LearnedAdds(p: string, tail: seq<string>, endpoints: seq<Endpoint>, cache: Cache, n: string)
    requires p !in cache && MatchedName(p, endpoints) == Some(n)
    ensures Learned([p] + tail, endpoints, cache) == Learned(tail, endpoints, cache[p := n])[p := n]
  {
  }

  /** The names the enumeration yields, read from a cache: one per product
      name that the cache holds, in order. */
  function CachedNames(products: seq<string>, cache: Cache): seq<string> {
    if products == [] then []
    else
      (if products[0] in cache then [cache[products[0]]] else []) + CachedNames(products[1..], cache)
  }

  /** Every yielded name is what the final cache holds for its product name,
      and a product name is skipped exactly when the final cache lacks it. */
  lemma {:induction false} YieldsFinalCacheEntries(products: seq<string>, endpoints: seq<Endpoint>, cache: Cache)
    ensures var r := EnumerateDeviceNames(products, endpoints, cache);
            r.names == CachedNames(products, r.cache)
    decreases |products|
  {
    if products != [] {
      var p := products[0];
      var first := LookupName(p, endpoints, cache);
      var rest := EnumerateDeviceNames(products[1..], endpoints, first.cache);
      YieldsFinalCacheEntries(products[1..], endpoints, first.cache);
      if first.name.None? {
        FinalCache(products[1..], endpoints, first.cache);
        assert p !in Learned(products[1..], endpoints, first.cache);
        assert p !in rest.cache;
      }
    }
  }
}

=== FILE: device_selection.dfy ===
/** Resolution of the configured device selector to a concrete render
    endpoint, as the render worker does it at the top of each outer-loop
    iteration. */
module DeviceSelection {
  import opened Common

  const DefaultSelector: string := "default"

  /** The selector asks for the system default endpoint. */
  predicate IsDefaultSelector(selector: string) {
    EqualsIgnoreCase(selector, DefaultSelector)
  }

  /** An endpoint matches when its friendly name occurs inside the selector
      (the selector contains the name, not the other way round). */
  predicate Matches(selector: string, e: Endpoint) {
    Contains(selector, e.friendlyName)
  }

  function MatcherFor(selector: string): Endpoint -> bool {
    e => Matches(selector, e)
  }

  /** Index `i` is the first endpoint, in enumeration order, that matches. */
  predicate IsFirstMatch(selector: string, endpoints: seq<Endpoint>, i: int) {
    && 0 <= i < |endpoints|
    && Matches(selector, endpoints[i])
    && forall j :: 0 <= j < i ==> !Matches(selector, endpoints[j])
  }

  predicate NoneMatch(selector: string, endpoints: seq<Endpoint>) {
    forall j :: 0 <= j < |endpoints| ==> !Matches(selector, endpoints[j])
  }

  /** The indices `0 .. n-1`. */
  function Below(n: nat): (s: set<nat>)
    ensures forall j: nat :: j in s <==> j < n
  {
    if n == 0 then {} else Below(n - 1) + {n - 1}
  }

  datatype Resolution =
    | UseDefault(device: Endpoint)
    | UseEnumerated(index: nat, device: Endpoint, disposed: set<nat>)
    | NoMatch(disposed: set<nat>)

  /** The device the resolution opens, if any. */
  function DeviceOf(r: Resolution): Option<Endpoint> {
    match r
    case UseDefault(d) => Some(d)
    case UseEnumerated(_, d, _) => Some(d)
    case NoMatch(_) => None
  }

  /** The endpoints the resolution disposed of without using them. */
  function DisposedBy(r: Resolution): set<nat> {
    match r
    case UseDefault(_) => {}
    case UseEnumerated(_, _, disposed) => disposed
    case NoMatch(disposed) => disposed
  }

  /** Resolves a (non-blank) selector. "default", compared ignoring case, picks
      the system default endpoint when there is one. Otherwise, including when
      "default" was asked for but no default exists, the active endpoints are
      scanned in order with the literal selector: the first match is chosen,
      each endpoint rejected before it is disposed, and later ones are never
      looked at. */
  function Resolve(selector: string, endpoints: seq<Endpoint>, defaultEndpoint: Option<Endpoint>): (r: Resolution)
    ensures IsDefaultSelector(selector) && defaultEndpoint.Some? ==> r == UseDefault(defaultEndpoint.value)
    ensures r.UseDefault? ==> IsDefaultSelector(selector) && defaultEndpoint == Some(r.device)
    ensures r.UseEnumerated? ==>
              && IsFirstMatch(selector, endpoints, r.index)
              && r.device == endpoints[r.index]
              && r.disposed == Below(r.index)
    ensures r.NoMatch? ==> NoneMatch(selector, endpoints) && r.disposed == Below(|endpoints|)
    ensures r.NoMatch? <==> NoneMatch(selector, endpoints) && !(IsDefaultSelector(selector) && defaultEndpoint.Some?)
  {
    if IsDefaultSelector(selector) && defaultEndpoint.Some? then
      UseDefault(defaultEndpoint.value)
    else
      match FirstWhere(endpoints, MatcherFor(selector), 0)
      case Some(i) => UseEnumerated(i, endpoints[i], Below(i))
      case None => NoMatch(Below(|endpoints|))
  }

  /** The enumeration loop itself: walks the endpoints in order, stops at the
      first whose friendly name the selector contains, and disposes each one it
      passes over. */
  method ScanEndpoints(selector: string, endpoints: seq<Endpoint>) returns (found: Option<nat>, disposed: set<nat>)
    ensures found.Some? ==> IsFirstMatch(selector, endpoints, found.value) && disposed == Below(found.value)
    ensures found.None? ==> NoneMatch(selector, endpoints) && disposed == Below(|endpoints|)
    ensures found == FirstWhere(endpoints, MatcherFor(selector), 0)
  {
    found := None;
    disposed := {};
    var i := 0;
    while i < |endpoints|
      invariant 0 <= i <= |endpoints|
      invariant disposed == Below(i)
      invariant forall j :: 0 <= j < i ==> !Matches(selector, endpoints[j])
    {
      if Contains(selector, endpoints[i].friendlyName) {
        found := Some(i);
        return;
      } else {
        disposed := disposed + {i};
      }
      i := i + 1;
    }
  }

  /** An endpoint whose friendly name equals the selector always matches, so
      such a selector never leads to the no-match backoff. */
  lemma ExactNameNeverFails(selector: string, endpoints: seq<Endpoint>, defaultEndpoint: Option<Endpoint>, k: nat)
    requires k < |endpoints| && endpoints[k].friendlyName == selector
    ensures !Resolve(selector, endpoints, defaultEndpoint).NoMatch?
    ensures Resolve(selector, endpoints, defaultEndpoint).UseEnumerated? ==>
              Resolve(selector, endpoints, defaultEndpoint).index <= k
  {
  }

  /** Matching is by containment, so an exact name can lose to an endpoint
      enumerated earlier whose friendly name is a shorter piece of it. */
  lemma ExactNameLosesToEarlierSubstring()
    ensures var endpoints := [Endpoint("{0.0.0}.{a}", "Speakers"), Endpoint("{0.0.0}.{b}", "Speakers (USB)")];
            Resolve("Speakers (USB)", endpoints, None) == UseEnumerated(0, endpoints[0], {})
  {
    var endpoints := [Endpoint("{0.0.0}.{a}", "Speakers"), Endpoint("{0.0.0}.{b}", "Speakers (USB)")];
    assert StartsWith("Speakers (USB)", "Speakers");
    assert IsFirstMatch("Speakers (USB)", endpoints, 0);
  }

  /** "default" without a default endpoint is matched literally: an endpoint
      whose name occurs in the word "default" is then chosen. */
  lemma DefaultFallsThroughToScan(endpoints: seq<Endpoint>)
    requires |endpoints| > 0 && endpoints[0].friendlyName == "fault"
    ensures Resolve("default", endpoints, None) == UseEnumerated(0, endpoints[0], {})
  {
  }
}

=== FILE: generator.dfy ===
/** The generator worker: one iteration writes a block into the ring buffer
    when it has room for one, then refreshes its cached tone parameters and
    synthesizes the next block into its scratch buffer. */
module Generator {
  import opened Common
  import opened Buffers

  /** One block's worth of bytes. */
  type Block = b: seq<byte> | |b| == BlockBytes witness Zeros(BlockBytes)

  /** `n` zero bytes. */
  function Zeros(n: nat): (z: seq<byte>)
    ensures |z| == n && forall i :: 0 <= i < n ==> z[i] == 0
  {
    if n == 0 then [] else Zeros(n - 1) + [0]
  }

  /** The all-zero block written while muted. */
  const Silence: Block := Zeros(BlockBytes)

  /** The tone parameters as the generator reads them on one iteration. */
  datatype Params = Params(frequency: real, volume: real, muted: bool)

  /** The generator's own state: the frequency and volume its phase increment
      and amplitude were last computed from, and the scratch buffer holding
      the most recently synthesized block. */
  datatype Gen = Gen(currentFrequency: real, currentVolume: real, scratch: Block)

  /** Before the first iteration the cached parameters hold the sentinel -1
      and the scratch buffer holds whatever the fresh allocation contained. */
  function Start(scratch: Block): (g: Gen)
    ensures g.scratch == scratch
    ensures g.currentFrequency < 0.0 && g.currentVolume < 0.0
  {
    Gen(-1.0, -1.0, scratch)
  }

  datatype StepResult = StepResult(gen: Gen, ring: Ring, written: Option<Block>)

  predicate HasRoom(ring: Ring)
    requires ring.Valid()
  {
    ring.Free() >= BlockBytes
  }

  /** One iteration of the generator loop. `synthesized` stands for the block
      the sine loop computes from the refreshed parameters; the arithmetic
      that produces it is not modelled. */
  function Step(g: Gen, ring: Ring, p: Params, synthesized: Block): (r: StepResult)
    requires ring.Valid()
    ensures r.ring.Valid() && r.ring.maxLength == ring.maxLength
    ensures r.written.Some? <==> HasRoom(ring)
    ensures r.written.Some? ==> r.ring.count == ring.count + BlockBytes
    ensures r.written.None? ==> r.gen == g && r.ring == ring
    ensures r.written.Some? && p.muted ==> forall i :: 0 <= i < |r.written.value| ==> r.written.value[i] == 0
    ensures r.written.Some? && !p.muted ==> r.written.value == g.scratch
    ensures r.written.Some? ==>
              && r.gen.currentFrequency == p.frequency
              && r.gen.currentVolume == p.volume
              && r.gen.scratch == synthesized
  {
    if ring.maxLength - ring.count >= BlockBytes then
      var block: Block := if p.muted then Silence else g.scratch;
      var frequency := if g.currentFrequency != p.frequency then p.frequency else g.currentFrequency;
      var volume := if g.currentVolume != p.volume then p.volume else g.currentVolume;
      StepResult(Gen(frequency, volume, synthesized), Write(ring, BlockBytes), Some(block))
    else
      StepResult(g, ring, None)
  }

  /** What the environment supplies to one generator iteration. */
  datatype Tick = Tick(params: Params, synthesized: Block)

  datatype RunResult = RunResult(gen: Gen, ring: Ring, writes: nat)

  /** Generator iterations with no reader draining the ring buffer. Once the
      free space drops below a block the generator stops writing: the writes
      never exceed the free space it started with, so from an empty buffer of
      the renderer's capacity (exactly two blocks) at most two blocks are
      written and the buffer never holds more than its capacity. */
  function RunUndrained(g: Gen, ring: Ring, ticks: seq<Tick>): (r: RunResult)
    requires ring.Valid()
    ensures r.ring.Valid() && r.ring.maxLength == ring.maxLength
    ensures r.ring.count == ring.count + r.writes * BlockBytes
    ensures r.writes * BlockBytes <= ring.Free()
    ensures ring == EmptyRing(RingCapacity) ==> r.writes <= 2
    decreases |ticks|
  {
    if ticks == [] then RunResult(g, ring, 0)
    else
      var s := Step(g, ring, ticks[0].params, ticks[0].synthesized);
      var rest := RunUndrained(s.gen, s.ring, ticks[1..]);
      RunResult(rest.gen, rest.ring, rest.writes + (if s.written.Some? then 1 else 0))
  }

  /** Because the write comes before the synthesis, an unmuted write emits the
      block synthesized on the previous writing iteration: the tone lags one
      block behind the parameters it was read with. */
  lemma WriteLagsSynthesisByOneBlock(g: Gen, ring: Ring, p1: Params, b1: Block, p2: Params, b2: Block)
    requires ring.Valid()
    requires Step(g, ring, p1, b1).written.Some?
    requires !p2.muted
    requires var s1 := Step(g, ring, p1, b1); HasRoom(s1.ring)
    ensures var s1 := Step(g, ring, p1, b1);
            Step(s1.gen, s1.ring, p2, b2).written == Some(b1)
  {
  }
}

=== FILE: lifecycle.dfy ===
/** Disposal of the renderer: signal stop, join each worker (aborting one
    that does not exit in time), close the stop event, and drop every
    reference so that a second disposal finds nothing to do. */
module Lifecycle {
  import opened Common

  /** A worker thread: whether it is still running, and whether it would
      exit within the one-second join window. */
  datatype Worker = Worker(alive: bool, exitsWithinJoin: bool)

  /** The renderer's disposable resources: whether the stop event reference
      is non-null, and each worker thread, with `None` for a null reference. */
  datatype Resources = Resources(
    needToStop: bool,
    renderThread: Option<Worker>,
    generateThread: Option<Worker>)

  const Released: Resources := Resources(false, None, None)

  datatype Action = SignalStop | JoinRender | AbortRender | JoinGenerate | AbortGenerate | CloseStop {
    /** The action retires the render worker. */
    predicate OnRender() { this == JoinRender || this == AbortRender }
    /** The action retires the generator worker. */
    predicate OnGenerate() { this == JoinGenerate || this == AbortGenerate }
  }

  /** Every action on the render worker comes before every action on the
      generator worker. */
  predicate RenderBeforeGenerate(acts: seq<Action>) {
    forall i, j :: 0 <= i < |acts| && 0 <= j < |acts| && acts[i].OnRender() && acts[j].OnGenerate() ==> i < j
  }

  datatype Disposal = Disposal(resources: Resources, actions: seq<Action>)

  /** Join a worker if it is alive; abort it if the join times out. */
  function Retire(w: Option<Worker>, join: Action, abort: Action): (acts: seq<Action>)
    requires join != abort
    ensures join in acts <==> w.Some? && w.value.alive
    ensures abort in acts <==> w.Some? && w.value.alive && !w.value.exitsWithinJoin
    ensures forall a :: a in acts ==> a == join || a == abort
    ensures acts != [] ==> acts[0] == join
    ensures abort in acts ==> acts == [join, abort]
    ensures |acts| <= 2
  {
    match w
    case None => []
    case Some(t) =>
      if !t.alive then []
      else if t.exitsWithinJoin then [join]
      else [join, abort]
  }

  /** Retire the render worker, then the generator worker. */
  function RetireWorkers(render: Option<Worker>, generate: Option<Worker>): (acts: seq<Action>)
    ensures SignalStop !in acts && CloseStop !in acts
    ensures JoinRender in acts <==> render.Some? && render.value.alive
    ensures AbortRender in acts <==> render.Some? && render.value.alive && !render.value.exitsWithinJoin
    ensures JoinGenerate in acts <==> generate.Some? && generate.value.alive
    ensures AbortGenerate in acts <==> generate.Some? && generate.value.alive && !generate.value.exitsWithinJoin
    ensures JoinRender in acts ==> acts[0] == JoinRender
    ensures RenderBeforeGenerate(acts)
  {
    var r := Retire(render, JoinRender, AbortRender);
    var g := Retire(generate, JoinGenerate, AbortGenerate);
    var acts := r + g;
    assert forall a :: a in acts <==> a in r || a in g;
    assert forall i :: 0 <= i < |r| ==> acts[i] == r[i] && !acts[i].OnGenerate();
    assert forall i :: |r| <= i < |acts| ==> acts[i] == g[i - |r|] && !acts[i].OnRender();
    acts
  }

  /** Signal the stop event before the retirements and close it after them,
      when the event exists. */
  function Bracketed(present: bool, joins: seq<Action>): (acts: seq<Action>)
    requires SignalStop !in joins && CloseStop !in joins
    ensures SignalStop in acts <==> present
    ensures CloseStop in acts <==> present
    ensures present ==> acts[0] == SignalStop && acts[|acts| - 1] == CloseStop
    ensures forall a: Action :: a.OnRender() || a.OnGenerate() ==> (a in acts <==> a in joins)
    ensures RenderBeforeGenerate(joins) ==> RenderBeforeGenerate(acts)
    ensures !present && joins == [] ==> acts == []
  {
    if present then
      var acts := [SignalStop] + joins + [CloseStop];
      assert forall a :: a in acts <==> a == SignalStop || a in joins || a == CloseStop;
      assert forall i :: 1 <= i < |acts| - 1 ==> acts[i] == joins[i - 1];
      acts
    else joins
  }

  /** Signal stop if the event exists, retire both workers, close the event,
      and drop every reference. */
  function Dispose(r: Resources): (d: Disposal)
    ensures d.resources == Released
    ensures SignalStop in d.actions <==> r.needToStop
    ensures CloseStop in d.actions <==> r.needToStop
    ensures r.needToStop ==> d.actions[0] == SignalStop && d.actions[|d.actions| - 1] == CloseStop
    ensures JoinRender in d.actions <==> r.renderThread.Some? && r.renderThread.value.alive
    ensures JoinGenerate in d.actions <==> r.generateThread.Some? && r.generateThread.value.alive
    ensures AbortRender in d.actions <==>
              r.renderThread.Some? && r.renderThread.value.alive && !r.renderThread.value.exitsWithinJoin
    ensures AbortGenerate in d.actions <==>
              r.generateThread.Some? && r.generateThread.value.alive && !r.generateThread.value.exitsWithinJoin
    ensures RenderBeforeGenerate(d.actions)
    ensures r == Released ==> d.actions == []
  {
    var acts := Bracketed(r.needToStop, RetireWorkers(r.renderThread, r.generateThread));
    Disposal(Released, acts)
  }
}

=== FILE: pipeline.dfy ===
/** The whole renderer: the generator worker, the ring buffer they share, the
    render worker, the endpoint-notification callback and the device's
    playback, interleaved in any order. */
module Pipeline {
  import opened Common
  import opened Buffers
  import Generator
  import RenderLoop

  datatype System = System(
    gen: Generator.Gen,
    generating: bool,          // the generator worker has not yet seen stop
    ring: Ring,
    renderer: RenderLoop.Renderer)

  /** The ring buffer keeps the capacity it was built with and never holds
      more; the device buffer never holds more than its length. */
  predicate Inv(s: System) {
    && s.ring.Valid()
    && s.ring.maxLength == RingCapacity
    && s.renderer.Valid()
  }

  /** Construction: a ring buffer of two blocks, both workers started, no
      reset pending. The scratch block is whatever the allocation held. */
  function Construct(scratch: Generator.Block): (s: System)
    ensures Inv(s) && s.ring.count == 0 && s.generating
    ensures s.ring.maxLength == 2 * BlockBytes
    ensures s.renderer.phase == RenderLoop.Idle && !s.renderer.reset
  {
    System(Generator.Start(scratch), true, EmptyRing(RingCapacity), RenderLoop.Initial())
  }

  datatype Event =
    | GeneratorTick(params: Generator.Params, synthesized: Generator.Block, stop: bool)
    | RenderTick(env: RenderLoop.Env)
    | DefaultChanged(flow: RenderLoop.Flow, role: RenderLoop.Role)
    | DevicePlays(bytes: nat)

  /** One event. Only the generator adds to the ring buffer and only the
      render worker takes from it; only the notification raises the reset
      signal; the generator, once stopped, stays stopped. */
  function Apply(s: System, e: Event): (s': System)
    requires Inv(s)
    ensures Inv(s')
    ensures e.GeneratorTick? ==> s'.ring.count >= s.ring.count && s'.renderer == s.renderer
    ensures !e.GeneratorTick? ==> s'.ring.count <= s.ring.count && s'.gen == s.gen
    ensures !e.DefaultChanged? && !s.renderer.reset ==> !s'.renderer.reset
    ensures !s.generating ==> !s'.generating
  {
    match e
    case GeneratorTick(params, synthesized, stop) =>
      if !s.generating then s
      else if stop then s.(generating := false)
      else
        var step := Generator.Step(s.gen, s.ring, params, synthesized);
        s.(gen := step.gen, ring := step.ring)
    case RenderTick(env) =>
      var o := RenderLoop.Step(s.renderer, s.ring, env);
      s.(renderer := o.renderer, ring := o.ring)
    case DefaultChanged(flow, role) =>
      s.(renderer := s.renderer.(reset := RenderLoop.OnDefaultDeviceChanged(flow, role, s.renderer.reset)))
    case DevicePlays(bytes) =>
      s.(renderer := s.renderer.(provider := Playback(s.renderer.provider, bytes)))
  }

  /** Any interleaving of the two workers, notifications and playback keeps
      both buffers within their capacities. The generator's free-space test
      keeps the ring buffer within its capacity. The device buffer stays
      within its length because adding samples discards what does not fit;
      the pump's one-frame headroom test is what makes that discard zero
      (see `RenderLoop.Step`). */
  function Run(s: System, events: seq<Event>): (s': System)
    requires Inv(s)
    ensures Inv(s')
    ensures s'.ring.count <= RingCapacity && s'.renderer.provider.buffered <= ProviderLength
    decreases |events|
  {
    if events == [] then s else Run(Apply(s, events[0]), events[1..])
  }
}

=== FILE: render_loop.dfy ===
/** The render worker: an outer loop that resolves the device selector to an
    endpoint and opens it, and an inner pump loop that feeds the device from
    the ring buffer until the session must be torn down. Each control point of
    the worker where it waits or decides is one phase; one call of `Step` is
    the worker running from one control point to the next. */
module RenderLoop {
  import opened Common
  import opened Buffers
  import opened DeviceSelection

  datatype Flow = Render | Capture | All
  datatype Role = Console | Multimedia | Communications

  /** The endpoint-notification callback for a default-device change: the
      reset signal is raised only for the console role of the render flow;
      other notifications leave it as it was. */
  function OnDefaultDeviceChanged(flow: Flow, role: Role, reset: bool): (r: bool)
    ensures flow == Render && role == Console ==> r
    ensures !(flow == Render && role == Console) ==> r == reset
  {
    if flow == Render && role == Console then true else reset
  }

  /** An open device and the selector it was opened for. */
  datatype Session = Session(device: Endpoint, selector: string)

  datatype Phase =
    | Idle                        // top of the outer loop
    | IdleWait                    // blank selector: short wait, then back to the top
    | Resolving(selector: string) // selector snapshot taken; resolve and open
    | Streaming(session: Session) // inner pump loop
    | Backoff                     // nothing matched: long wait
    | Settle                      // short wait at the bottom of the outer loop
    | Stopped                     // the worker has exited

  /** The render worker's state: where it is, the pending reset signal (an
      auto-reset event, consumed when tested), and the device-side buffer. */
  datatype Renderer = Renderer(phase: Phase, reset: bool, provider: Provider) {
    /** The device buffer is within its length, and resolution and streaming
        only ever happen for a non-blank selector. */
    predicate Valid() {
      && provider.Valid()
      && (phase.Resolving? ==> !IsBlank(phase.selector))
      && (phase.Streaming? ==> !IsBlank(phase.session.selector))
    }
  }

  function Initial(): (r: Renderer)
    ensures r.Valid() && r.phase == Idle && !r.reset
  {
    Renderer(Idle, false, Provider(0))
  }

  /** What the worker observes on one step: the stop signal, the current
      device selector, the active endpoints in enumeration order, the system
      default endpoint if any, and whether opening the resolved device (the
      output's constructor, `Init` or `Play`) throws. */
  datatype Env = Env(
    stop: bool,
    selector: string,
    endpoints: seq<Endpoint>,
    defaultEndpoint: Option<Endpoint>,
    fault: bool)

  /** What one step does to the outside world. */
  datatype Effect = Effect(
    waitMs: nat,              // bound on the time spent waiting
    disposed: set<nat>,       // endpoints (by enumeration index) released unused
    opens: Option<Endpoint>,   // device opened for playback
    closes: Option<Endpoint>,  // device released
    fed: nat,                 // bytes moved from the ring buffer to the device
    dropped: nat)             // bytes the device buffer discarded on overflow

  const NoEffect: Effect := Effect(0, {}, None, None, 0, 0)

  const IdleWaitMs: nat := 100
  const BackoffMs: nat := 500
  const SettleMs: nat := 100
  const PumpPollMs: nat := 1

  datatype Outcome = Outcome(renderer: Renderer, ring: Ring, effect: Effect)

  /** The pump may feed the device: data is waiting and the device holds at
      most one frame. */
  predicate CanPump(ring: Ring, provider: Provider) {
    ring.count > 0 && provider.buffered <= FrameBytes
  }

  /** Top of the outer loop: exit on stop; otherwise clear the device buffer
      and snapshot the selector. A blank selector never starts resolution. */
  function IdleStep(r: Renderer, env: Env): (o: Renderer)
    requires r.Valid()
    ensures o.Valid() && o.reset == r.reset
    ensures env.stop ==> o.phase == Stopped
    ensures !env.stop ==> o.provider.buffered == 0
    ensures !env.stop && IsBlank(env.selector) ==> o.phase == IdleWait
    ensures !env.stop && !IsBlank(env.selector) ==> o.phase == Resolving(env.selector)
  {
    if env.stop then r.(phase := Stopped)
    else if IsBlank(env.selector) then Renderer(IdleWait, r.reset, Provider(0))
    else Renderer(Resolving(env.selector), r.reset, Provider(0))
  }

  /** Resolution and opening. No device: back off. A device: open it and
      start streaming, unless opening throws, in which case the device is
      released and the worker settles before retrying. */
  function ResolveStep(selector: string, r: Renderer, ring: Ring, env: Env): (o: Outcome)
    requires r.Valid() && !IsBlank(selector)
    ensures o.renderer.Valid() && o.renderer.reset == r.reset && o.renderer.provider == r.provider
    ensures o.ring == ring
    ensures var res := Resolve(selector, env.endpoints, env.defaultEndpoint);
            && o.effect.disposed == DisposedBy(res)
            && (res.NoMatch? ==> o.renderer.phase == Backoff && o.effect.opens.None?)
            && (!res.NoMatch? && env.fault ==>
                  o.renderer.phase == Settle && o.effect.opens.None? && o.effect.closes == DeviceOf(res))
            && (!res.NoMatch? && !env.fault ==>
                  && o.renderer.phase == Streaming(Session(DeviceOf(res).value, selector))
                  && o.effect.opens == DeviceOf(res))
    ensures o.effect.fed == 0 && o.effect.waitMs == 0
  {
    var res := Resolve(selector, env.endpoints, env.defaultEndpoint);
    var disposed := DisposedBy(res);
    match DeviceOf(res)
    case None =>
      Outcome(r.(phase := Backoff), ring, NoEffect.(disposed := disposed))
    case Some(device) =>
      if env.fault then
        Outcome(r.(phase := Settle), ring, NoEffect.(disposed := disposed, closes := Some(device)))
      else
        Outcome(r.(phase := Streaming(Session(device, selector))), ring,
                NoEffect.(disposed := disposed, opens := Some(device)))
  }

  /** One pass of the inner pump loop. Stop ends the session. Otherwise, with
      data waiting and room in the device, up to one frame is read and queued;
      failing that, the session ends when the reset signal is pending
      (consuming it) or the selector no longer equals the one the session was
      opened with, and else the worker polls again. Nothing in the pump calls
      the device, so neither a device fault nor the endpoint list is
      consulted: playback errors stay on the output device's own thread. */
  function StreamStep(s: Session, r: Renderer, ring: Ring, env: Env): (o: Outcome)
    requires r.Valid() && ring.Valid() && r.phase == Streaming(s)
    ensures o.renderer.Valid() && o.ring.Valid() && o.ring.maxLength == ring.maxLength
    ensures o.effect.fed > 0 <==> !env.stop && CanPump(ring, r.provider)
    ensures o.effect.fed > 0 ==>
              && o.effect.fed <= FrameBytes
              && (o.effect.fed < FrameBytes ==> o.ring.count == 0)
              && o.ring.count + o.effect.fed == ring.count
              && o.renderer.provider.buffered == r.provider.buffered + o.effect.fed
    ensures o.effect.fed == 0 ==> o.ring == ring && o.renderer.provider == r.provider
    ensures o.renderer.phase.Streaming? <==>
              !env.stop && (CanPump(ring, r.provider) || (!r.reset && s.selector == env.selector))
    ensures o.renderer.phase.Streaming? ==> o.renderer.phase.session == s && o.effect.closes.None?
    ensures !o.renderer.phase.Streaming? ==> o.renderer.phase == Settle && o.effect.closes == Some(s.device)
    ensures o.renderer.reset <==> r.reset && (env.stop || CanPump(ring, r.provider))
    ensures o.effect.opens.None? && o.effect.disposed == {}
    ensures o.effect.dropped == 0
  {
    if env.stop then
      Outcome(r.(phase := Settle), ring, NoEffect.(closes := Some(s.device)))
    else if ring.count > 0 && r.provider.buffered <= FrameBytes then
      var read := Read(ring, FrameBytes);
      var added := AddSamples(r.provider, read.count);
      Outcome(r.(provider := added.provider), read.ring, NoEffect.(fed := read.count, dropped := added.dropped))
    else if r.reset then
      Outcome(Renderer(Settle, false, r.provider), ring, NoEffect.(closes := Some(s.device)))
    else if s.selector != env.selector then
      Outcome(r.(phase := Settle), ring, NoEffect.(closes := Some(s.device)))
    else
      Outcome(r, ring, NoEffect.(waitMs := PumpPollMs))
  }

  /** A bounded wait on the stop signal: exit when it is set, else go on. */
  function WaitThen(r: Renderer, ring: Ring, env: Env, ms: nat, next: Phase): (o: Outcome)
    ensures o.ring == ring
    ensures o.renderer.phase == (if env.stop then Stopped else next)
    ensures o.renderer.reset == r.reset && o.renderer.provider == r.provider
    ensures o.effect == NoEffect.(waitMs := ms)
  {
    Outcome(r.(phase := if env.stop then Stopped else next), ring, NoEffect.(waitMs := ms))
  }

  /** One step of the render worker from its current control point. The ring
      buffer changes only when the pump feeds the device; the reset signal is
      consumed only by the pump's teardown test; a stopped worker stays
      stopped. */
  function Step(r: Renderer, ring: Ring, env: Env): (o: Outcome)
    requires r.Valid() && ring.Valid()
    ensures o.renderer.Valid() && o.ring.Valid() && o.ring.maxLength == ring.maxLength
    ensures o.effect.fed == 0 ==> o.ring == ring
    ensures o.effect.dropped == 0
    ensures o.effect.fed > 0 ==> r.phase.Streaming? && o.ring.count + o.effect.fed == ring.count
    ensures !r.phase.Streaming? ==> o.renderer.reset == r.reset
    ensures r.phase == Stopped ==> o.renderer.phase == Stopped && o.effect == NoEffect
    ensures o.effect.opens.Some? ==> r.phase.Resolving?
    ensures o.renderer.phase.Streaming? ==> r.phase.Streaming? || r.phase.Resolving?
  {
    match r.phase
    case Idle => Outcome(IdleStep(r, env), ring, NoEffect)
    case IdleWait => WaitThen(r, ring, env, IdleWaitMs, Idle)
    case Resolving(selector) => ResolveStep(selector, r, ring, env)
    case Streaming(session) => StreamStep(session, r, ring, env)
    case Backoff => WaitThen(r, ring, env, BackoffMs, Settle)
    case Settle => WaitThen(r, ring, env, SettleMs, Idle)
    case Stopped => Outcome(r, ring, NoEffect)
  }

  /** The outcomes of running the worker over a sequence of observations. */
  function Run(r: Renderer, ring: Ring, envs: seq<Env>): (trace: seq<Outcome>)
    requires r.Valid() && ring.Valid()
    ensures |trace| == |envs|
    ensures forall i :: 0 <= i < |trace| ==> trace[i].renderer.Valid() && trace[i].ring.Valid()
    decreases |envs|
  {
    if envs == [] then []
    else
      var o := Step(r, ring, envs[0]);
      [o] + Run(o.renderer, o.ring, envs[1..])
  }

  predicate Quiet(ph: Phase) {
    ph == Idle || ph == IdleWait || ph == Stopped
  }

  /** While the selector stays blank the worker only idles: it never resolves,
      never disposes or opens a device, never touches the ring buffer. */
  lemma {:induction false} BlankSelectorNeverResolves(r: Renderer, ring: Ring, envs: seq<Env>)
    requires r.Valid() && ring.Valid() && Quiet(r.phase)
    requires forall i :: 0 <= i < |envs| ==> IsBlank(envs[i].selector)
    ensures var trace := Run(r, ring, envs);
            forall i :: 0 <= i < |trace| ==>
              && Quiet(trace[i].renderer.phase)
              && trace[i].effect.opens.None?
              && trace[i].effect.disposed == {}
              && trace[i].ring == ring
              && trace[i].effect.waitMs <= IdleWaitMs
    decreases |envs|
  {
    if envs != [] {
      var o := Step(r, ring, envs[0]);
      BlankSelectorNeverResolves(o.renderer, o.ring, envs[1..]);
      var trace := Run(r, ring, envs);
      assert trace == [o] + Run(o.renderer, o.ring, envs[1..]);
    }
  }

  /** A selector that matches nothing: every endpoint is disposed, no device
      is opened, and the worker waits 500 ms and then 100 ms before it takes
      the selector again. */
  lemma NoMatchBacksOff(r: Renderer, ring: Ring, selector: string, e0: Env, e1: Env, e2: Env)
    requires r.Valid() && ring.Valid() && r.phase == Resolving(selector)
    requires !e1.stop && !e2.stop
    requires Resolve(selector, e0.endpoints, e0.defaultEndpoint).NoMatch?
    ensures var trace := Run(r, ring, [e0, e1, e2]);
            && trace[0].renderer.phase == Backoff
            && trace[0].effect.disposed == Below(|e0.endpoints|)
            && trace[1].renderer.phase == Settle
            && trace[2].renderer.phase == Idle
            && trace[0].effect.waitMs + trace[1].effect.waitMs + trace[2].effect.waitMs == BackoffMs + SettleMs
            && forall i :: 0 <= i < 3 ==> trace[i].effect.opens.None?
  {
    var o0 := Step(r, ring, e0);
    var o1 := Step(o0.renderer, o0.ring, e1);
    var o2 := Step(o1.renderer, o1.ring, e2);
    assert Run(o1.renderer, o1.ring, [e2]) == [o2];
    assert Run(o0.renderer, o0.ring, [e1, e2]) == [o1, o2] by {
      assert [e1, e2][1..] == [e2];
    }
    assert Run(r, ring, [e0, e1, e2]) == [o0, o1, o2] by {
      assert [e0, e1, e2][1..] == [e1, e2];
    }
  }

  /** Hot swap: while streaming to the default endpoint, a default-device
      change for the console render role tears the session down at the next
      idle pump pass, and the worker reopens on the new default endpoint. */
  lemma DefaultChangeSwapsDevice(r: Renderer, ring: Ring, session: Session, newDefault: Endpoint,
                                 e0: Env, e1: Env, e2: Env, e3: Env)
    requires r.Valid() && ring.Valid() && r.phase == Streaming(session)
    requires IsDefaultSelector(session.selector)
    requires !e0.stop && !e1.stop && !e2.stop && !e3.stop
    requires e2.selector == session.selector
    requires e3.defaultEndpoint == Some(newDefault) && !e3.fault
    requires !CanPump(ring, r.provider)
    ensures var r' := r.(reset := OnDefaultDeviceChanged(Render, Console, r.reset));
            var trace := Run(r', ring, [e0, e1, e2, e3]);
            && trace[0].renderer.phase == Settle
            && trace[0].effect.closes == Some(session.device)
            && !trace[0].renderer.reset
            && trace[1].renderer.phase == Idle
            && trace[2].renderer.phase == Resolving(session.selector)
            && trace[3].renderer.phase == Streaming(Session(newDefault, session.selector))
            && trace[3].effect.opens == Some(newDefault)
  {
    var r' := r.(reset := OnDefaultDeviceChanged(Render, Console, r.reset));
    var o0 := Step(r', ring, e0);
    assert o0.renderer.phase == Settle && !o0.renderer.reset;
    var o1 := Step(o0.renderer, o0.ring, e1);
    assert o1.renderer.phase == Idle;
    var o2 := Step(o1.renderer, o1.ring, e2);
    assert o2.renderer.phase == Resolving(session.selector);
    var o3 := Step(o2.renderer, o2.ring, e3);
    assert Run(o2.renderer, o2.ring, [e3]) == [o3];
    assert Run(o1.renderer, o1.ring, [e2, e3]) == [o2, o3] by {
      assert [e2, e3][1..] == [e3];
    }
    assert Run(o0.renderer, o0.ring, [e1, e2, e3]) == [o1, o2, o3] by {
      assert [e1, e2, e3][1..] == [e2, e3];
    }
    assert Run(r', ring, [e0, e1, e2, e3]) == [o0, o1, o2, o3] by {
      assert [e0, e1, e2, e3][1..] == [e1, e2, e3];
    }
  }


  /** The stop event, once set, is never reset. Held for three steps it
      brings the worker to an exit from any control point: at most one more
      device is opened (by a resolution already under way, which does not
      test stop) and it is released on the next step. */
  lemma StopHeldStops(r: Renderer, ring: Ring, e0: Env, e1: Env, e2: Env)
    requires r.Valid() && ring.Valid()
    requires e0.stop && e1.stop && e2.stop
    ensures var trace := Run(r, ring, [e0, e1, e2]);
            && trace[2].renderer.phase == Stopped
            && trace[1].effect.opens.None? && trace[2].effect.opens.None?
            && (trace[0].effect.opens.Some? ==> trace[1].effect.closes == trace[0].effect.opens)
  {
    var o0 := Step(r, ring, e0);
    var o1 := Step(o0.renderer, o0.ring, e1);
    var o2 := Step(o1.renderer, o1.ring, e2);
    assert Run(o1.renderer, o1.ring, [e2]) == [o2];
    assert Run(o0.renderer, o0.ring, [e1, e2]) == [o1, o2] by {
      assert [e1, e2][1..] == [e2];
    }
    assert Run(r, ring, [e0, e1, e2]) == [o0, o1, o2] by {
      assert [e0, e1, e2][1..] == [e1, e2];
    }
  }

  /** The outcome keeps the worker in session `s`, with no reset pending and
      the device still held. */
  predicate StillStreaming(o: Outcome, s: Session) {
    o.renderer.phase == Streaming(s) && !o.renderer.reset && o.effect.closes.None?
  }

  /** The empty device-removed callback and a pump that never calls the
      device mean a session outlives its device: with no stop, no pending
      reset and an unchanged selector the worker stays in the same session on
      every step, whatever the endpoint list and however device calls would
      fare, and it never releases the device. Only a default change (which
      raises the reset signal), a selector change or stop ends it. */
  lemma {:induction false} SessionOutlivesItsDevice(r: Renderer, ring: Ring, s: Session, envs: seq<Env>)
    requires r.Valid() && ring.Valid() && r.phase == Streaming(s) && !r.reset
    requires forall i :: 0 <= i < |envs| ==> !envs[i].stop && envs[i].selector == s.selector
    ensures var trace := Run(r, ring, envs);
            forall i :: 0 <= i < |trace| ==> StillStreaming(trace[i], s)
    decreases |envs|
  {
    if envs != [] {
      var o := Step(r, ring, envs[0]);
      assert StillStreaming(o, s);
      SessionOutlivesItsDevice(o.renderer, o.ring, s, envs[1..]);
      assert Run(r, ring, envs) == [o] + Run(o.renderer, o.ring, envs[1..]);
    }
  }
}
